=== FILE: README.md ===
# Community events: media normalisation, form validation and the event store

A model, in Dafny, of the logic inside a small React app for creating
community events. The app offers a form (community, title, start and end
date, location, description, one image or video). It normalises the chosen
media to a 4:5 JPEG and appends the event to a list that it keeps in the
browser's `localStorage` under the key `"events"`. The browser calls around
this logic are turned into parameters or into plain data. What is left is a
set of pure functions with contracts, plus lemmas that relate them.

Modules:

- `Wrappers`: `Option`, `Result`, and `Settlement`. A `Settlement` is how a promise ends: resolved, rejected, or never settled.
- `JsString`: `startsWith`, and `trim` with ECMAScript's exact set of whitespace and line-terminator characters.
- `Geometry`: source rectangles and the ratio test `w / h > ratio`, using JavaScript's results when `h` is 0.
- `Media`: selected files, the result of decoding them, and the canvas drawing that `toDataURL` turns into a JPEG data URL.
- `MediaUtils`: `resizeMedia`. The image path crops the largest centred 4:5 region and scales it to 400×500. The video path draws one whole frame onto the same canvas.
- `MediaUpload`: the `useMediaUpload` hook. It uses the same crop size, anchored at the top-left corner, on an 800×1000 canvas. Videos pass through as their raw data URL.
- `EventForm`: the draft, `validateForm`, `handleFileChange`, `handleSubmit` and the field edits.
- `App`: loading at start-up, `addEvent` (append, then persist the whole list), the `view` switch, and runs of user actions.
- `StoreCodec`: a concrete text encoding of event lists that meets the round-trip guarantee the store's lemmas assume of JSON, so that assumption is consistent.

The model follows the code as written, including these behaviours:

- Stored text that does not parse makes start-up throw, because `src/App.jsx:10` has no `try`. It does not yield an empty list. `App.Start` returns `Failure`.
- The video path does not crop. It stretches the whole frame onto the 4:5 canvas (`src/utils/mediaUtils.jsx:74`). `MediaUtils.VideoRegionIsFourByFiveIff` shows that the drawn region is 4:5 only for 4:5 videos.
- An image that cannot be decoded does not produce a decode error. The image element has no `onerror`, so the promise stays pending (`Settlement.Pending`). The submit never completes.
- After a successful submit the community is reset to "Fitness Club". The select does not offer that value, and the form started with "Indiranagar Run Club". `EventForm.ResetDiffersOnlyInCommunity` states this.
- `addEvent` calls `setEvents` before `setItem`. If the write exceeds the storage quota, the event is kept in memory but not in storage. The exception then reaches `handleSubmit`'s `catch`, which stores "Error processing media" under the `media` key and does not reset the form. `App.AddEvent` models this, and `App.RunKeepsStoredPrefix` shows that storage always holds a prefix of the in-memory list.
- The form renders the errors for community, title, dates, location and description only (`src/components/EventForm.jsx:144-245`). The `media` entry of the error map, whether "Media is required", "Invalid file type" or "Error processing media", is kept in state but never displayed, so a submit without media, or one whose processing fails, shows the user no message. The model describes the error map, not what is drawn.
- `handleFileChange` sets the media error to `null`. The model removes the key instead, because every reader of the map treats `null` and a missing key alike.

## Model

| member | source | states |
|---|---|---|
| `JsString.Trim` | src/components/EventForm.jsx:23-28 | the trimmed text occurs in the original, everything before and after it there is whitespace, and when it is not empty it neither starts nor ends with whitespace |
| `JsString.TrimEmptyIffBlank` | src/components/EventForm.jsx:23-28 | `!s.trim()` holds exactly when every character of `s` is whitespace |
| `Geometry.WiderThanFillRatio` | src/utils/mediaUtils.jsx:29-33 | the test `w / h > 4/5`, including JavaScript's Infinity and NaN results for `h == 0`, is the same as `5w > 4h` |
| `MediaUtils.CropToFill` | src/utils/mediaUtils.jsx:28-45 | the crop is exactly 4:5, lies inside the source, shares its centre, and spans its full width or its full height |
| `MediaUtils.CropAxisByShape` | src/utils/mediaUtils.jsx:33-45 | a wider-than-4:5 source keeps its full height with `y = 0` and `x = (w - sw)/2`; any other source keeps its full width with `x = 0` and `y = (h - sh)/2` |
| `MediaUtils.CropIsTheCentredFill` | src/utils/mediaUtils.jsx:28-45 | a rectangle is 4:5, inside, centred and spanning one axis if and only if it equals the crop |
| `MediaUtils.CropIsLargest` | src/utils/mediaUtils.jsx:33-45 | no 4:5 rectangle inside the source is wider or taller than the crop |
| `MediaUtils.CropIsWholeIffFourByFive` | src/utils/mediaUtils.jsx:33-45 | the crop is the whole image exactly when the source is already 4:5 |
| `MediaUtils.CropScalesUniformly` | src/utils/mediaUtils.jsx:22-47 | for a non-empty source, drawing the crop onto 400×500 uses the same scale factor on both axes |
| `MediaUtils.CropLandscapeExample` | src/utils/mediaUtils.jsx:33-38 | a 1200×600 source is cropped to 480×600 at offset (360, 0) |
| `MediaUtils.ResizeImage` | src/utils/mediaUtils.jsx:13-55 | a decoded image resolves to a 400×500 JPEG of its centred 4:5 crop; a read error rejects; an undecodable image never settles |
| `MediaUtils.ResizeVideoFrame` | src/utils/mediaUtils.jsx:57-81 | a decoded video resolves to a 400×500 JPEG of its whole frame at 0.1 s; every failure rejects and nothing stays pending |
| `MediaUtils.VideoRegionIsFourByFiveIff` | src/utils/mediaUtils.jsx:70-74 | the region the video path draws is 4:5 exactly when the video is 4:5 |
| `MediaUtils.ResizeMedia` | src/utils/mediaUtils.jsx:1-11 | "Unsupported file type" exactly when the type starts with neither `image/` nor `video/`; otherwise the image or video path is taken; every resolved result is 400×500 |
| `MediaUpload.CornerCrop` | src/hooks/useMediaUpload.jsx:29-48 | the hook's crop is 4:5, inside the source, and anchored at (0, 0) |
| `MediaUpload.CornerCropSizeAgrees` | src/hooks/useMediaUpload.jsx:34-43 | the hook's crop has the same width and height as the centred crop |
| `MediaUpload.CornerCropIsCentredIff` | src/hooks/useMediaUpload.jsx:36-48 | the two crops are the same rectangle exactly when the source is 4:5 |
| `MediaUpload.CornerCropScalesUniformly` | src/hooks/useMediaUpload.jsx:45-48 | drawing the corner crop onto 800×1000 uses the same scale factor on both axes |
| `MediaUpload.UploadKind` | src/hooks/useMediaUpload.jsx:11 | the kind is "image" exactly when the type starts with `image/`; every other type is "video" |
| `MediaUpload.HandleMediaUpload` | src/hooks/useMediaUpload.jsx:7-23 | no file changes nothing; the kind is always recorded; a decoded image becomes an 800×1000 JPEG, at quality 0.9, of the corner-anchored 4:5 crop; a readable non-image becomes its raw data URL; a failed read, or an image that does not decode, keeps the old preview |
| `MediaUpload.UploadKindAgreesWithForm` | src/hooks/useMediaUpload.jsx:11 | for every type the form accepts, the hook records the same kind as the form |
| `MediaUpload.UploadTakesWhatFormRejects` | src/hooks/useMediaUpload.jsx:11 | a type the form rejects is still taken by the hook, as a video |
| `EventForm.ResetDiffersOnlyInCommunity` | src/components/EventForm.jsx:52-60 | the reset draft is a fresh draft except for its community, "Fitness Club", which is neither the initial community nor a select option |
| `EventForm.Validate` | src/components/EventForm.jsx:20-32 | each key is present exactly when its field fails: an empty community, a title, location or description with no non-whitespace character, a start after the end (null dates count as 0), or missing media; each entry carries its message |
| `EventForm.ValidateReportsFailures` | src/components/EventForm.jsx:20-29 | the keys of the error map are exactly the fields that fail their check |
| `EventForm.ValidIffAllPass` | src/components/EventForm.jsx:30-31 | the error map has no keys exactly when every field passes |
| `EventForm.EqualDatesAccepted` | src/components/EventForm.jsx:24-25 | equal start and end instants raise no dates error |
| `EventForm.HandleFileChange` | src/components/EventForm.jsx:70-84 | no file changes nothing; an unsupported type sets "Invalid file type" and keeps the draft; any other file is attached with kind "image" exactly for `image/` types, and only the media field and the media error change |
| `EventForm.AcceptedFileIsResizable` | src/components/EventForm.jsx:74-81 | a file the form accepts is never refused by `resizeMedia` for its type, and its recorded kind names the path `resizeMedia` takes |
| `EventForm.ApplyEdit` | src/components/EventForm.jsx:132-235 | each handler stores its new value in its own field; the error map and every other field of the draft are unchanged |
| `EventForm.EditRevalidatesOneKey` | src/components/EventForm.jsx:20-29 | after an edit, every error key other than the one for the edited field fails validation exactly when it failed before |
| `EventForm.Submit` | src/components/EventForm.jsx:34-68 | a record is built exactly when validation passes, the media resolves and both dates are set; it keeps community, title, location and description, takes the given id and ISO dates, and carries the draft's kind with the data URL of the resized drawing; a failed validation leaves the draft and stores the validation errors; the form is reset only when `addEvent` returns, and otherwise the draft is kept; a valid draft whose media never settles keeps an empty error map; a valid draft whose media rejects, whose date is null, or whose `addEvent` throws stores only "Error processing media", under the `media` key |
| `App.Load` | src/App.jsx:9-12 | an absent or empty slot reads as the empty list; any other text loads exactly when it parses, and gives what it parses to |
| `App.Start` | src/App.jsx:6-12 | start-up succeeds exactly when the slot loads; the list is what was loaded, the view is "create" and the form is fresh |
| `App.StartWithEmptySlot` | src/App.jsx:10 | with nothing stored, the app starts with no events |
| `App.AddEvent` | src/App.jsx:14-18 | the list grows by one, the old events stay as its prefix and the new one is last; a write that fits stores the serialization of exactly the new list; a write throws exactly when the new list's serialization exceeds the quota, and then leaves storage as it was |
| `App.AddEventRoundTrip` | src/App.jsx:10-17 | loading after a successful `addEvent` gives the previous list followed by the new event |
| `App.Step` | src/App.jsx:14-56 | the list only ever gains at most one event, and only on a submit in the create view; other actions leave list and storage alone; "Create" shows the form, freshly mounted unless it was already shown; "List" shows the list; edits and file choices reach the form only in the create view |
| `App.Run` | src/App.jsx:14-56 | over any run of actions the quota is unchanged and the list gains at most one event per action |
| `App.InvalidSubmitLeavesStore` | src/components/EventForm.jsx:34-36 | a submit that fails validation leaves the list and storage untouched and stores the validation errors in the form |
| `App.ValidSubmitAppends` | src/components/EventForm.jsx:36-61 | a complete draft with resolvable media, whose record's list fits the slot, adds exactly one event that carries the draft's fields, persists the new list and resets the form |
| `App.ViewStaysKnown` | src/App.jsx:7-37 | over any run of actions, `view` stays "create" or "list" |
| `App.EventsOnlyGrow` | src/App.jsx:14-18 | over any run of actions, the earlier list is a prefix of the later one |
| `App.StepKeepsStoredPrefix` | src/App.jsx:14-18 | after any single action, storage still parses to a prefix of the in-memory list |
| `App.RunKeepsStoredPrefix` | src/App.jsx:9-18 | the same holds over any run of actions |
| `StoreCodec.WitnessIsLossless` | src/App.jsx:10-17 | some codec over stored event lists parses `"[]"` to the empty list, never writes the empty string, and gives back every list it wrote: the assumption behind the store's round-trip lemmas can be met |
| `App.StartStoresPrefix` | src/App.jsx:9-12 | right after start-up, storage parses to exactly the in-memory list |
| `App.Render` | src/App.jsx:50-56 | the form is shown exactly when `view` is "create"; any other value shows the list of current events |

## Left out

- Canvas pixels and JPEG encoding are not modelled, and neither is the effect of the quality factors 0.8 and 0.9 on the JPEG bytes. These are browser APIs. A `Media.Drawing` records the canvas size, the source region, the picture and the quality. `toDataURL` is a parameter (`toDataUrl`) that maps a drawing to the data URL stored with the event.
- `FileReader`, `Image` and `<video>` decoding are reduced to `Media.Decoding`: the decoded size, or the stage that failed.
- `URL.createObjectURL` and `URL.revokeObjectURL` are not modelled. Neither is the preview markup in `src/components/EventForm.jsx:94-114`.
- `JSON.stringify` and `JSON.parse` are the two functions of an `App.Codec`. The lemmas assume `App.Lossless`, which is what JSON guarantees for arrays of these records: they hold only integers, strings and a two-valued kind. `StoreCodec.WitnessIsLossless` gives a codec that meets it. Stored JSON that parses to something other than an array would make later code throw. That case is not modelled: `parse` returns either a list or nothing.
- The `localStorage` quota is modelled as a character budget for the `"events"` slot alone. Browsers count differently from each other.
- `Date.now()`, `new Date()` and `toISOString()` are parameters of the model (`id`, `now`, `iso`), as is `canvas.toDataURL` (`toDataUrl`). The source calls `new Date()` separately for the start and the end date, both at mount and at reset (`src/components/EventForm.jsx:11-12`, `55-56`); the model uses one instant `now` for both, so it does not show the two dates differing by the time between the calls. `toISOString` on a date outside the representable range is not modelled.
- React rendering, hooks and effects are not modelled, and neither is all of `src/components/EventList.jsx` (display only, with date formatting by date-fns). `App.Render` only says which screen is shown.
- `isSubmitting` is not modelled, and neither is the interleaving of asynchronous callbacks. `EventForm.Submit` and `MediaUpload.HandleMediaUpload` give the state once every callback has run. A pending resize leaves the button disabled for good, which the model does not show. Because of that interleaving, an `addEvent` closure that still holds an older list can overwrite both memory and storage with it, dropping an event added meanwhile (`src/App.jsx:14-17`); the model applies each `addEvent` to the current list.
- Floating point is replaced by exact `real` arithmetic. For pixel sizes the comparison `w / h > 400 / 500` picks the same branch as the exact test `5w > 4h`, so the choice of branch is not affected. What the model drops is the rounding of `h * targetAspect`, `w / targetAspect` and the offsets computed from them.
- Seeking a video shorter than 0.1 s clamps to its end. The model always records a frame time of 0.1 s.
- Strings are sequences of Unicode scalar values rather than UTF-16 code units. This makes no difference to `startsWith` on ASCII prefixes or to `trim`.
- The community field is any string. The select only ever supplies one of its four options, and `validateForm` only rejects the empty string.

=== FILE: app.dfy ===
/** The application shell: the event list loaded from and persisted to the
    `"events"` storage slot, the append done by `addEvent`, and the two-valued
    `view` that decides whether the form or the list is shown. */
module App {
  import opened Wrappers
  import opened Media
  import opened EventForm

  /** `JSON.stringify` and `JSON.parse` restricted to event lists; `parse`
      gives `None` where `JSON.parse` throws. */
  datatype Codec = Codec(serialize: seq<EventRecord> -> string, parse: string -> Option<seq<EventRecord>>)

  /** What JSON guarantees for arrays of records: the empty array's text
      parses to the empty list, serializing never yields the empty string,
      and parsing gives back exactly what was serialized. */
  ghost predicate Lossless(c: Codec) {
    && c.parse("[]") == Some([])
    && (forall xs :: c.serialize(xs) != "")
    && (forall xs :: c.parse(c.serialize(xs)) == Some(xs))
  }

  /** `localStorage` as far as the app uses it: the text under `"events"`
      (`null` when absent) and how many characters that slot may hold before
      `setItem` throws a quota error. */
  datatype Storage = Storage(slot: Option<string>, quota: nat)

  datatype LoadError = MalformedJson

  /** `JSON.parse(localStorage.getItem("events") || "[]")`: an absent or empty
      slot reads as `"[]"`; text that does not parse makes the effect throw. */
  function Load(c: Codec, slot: Option<string>): (r: Result<seq<EventRecord>, LoadError>)
    ensures (slot.None? || slot == Some("")) && c.parse("[]") == Some([]) ==> r == Result.Success([])
    ensures slot.Some? && slot.value != "" ==>
      (r.Failure? <==> c.parse(slot.value).None?)
      && (r.Success? ==> Some(r.value) == c.parse(slot.value))
  {
    var text := if slot.None? || slot == Some("") then "[]" else slot.value;
    match c.parse(text)
    case Some(xs) => Success(xs)
    case None => Failure(MalformedJson)
  }

  /** The persisted text is a faithful copy of a prefix of `events`. */
  predicate StoresPrefixOf(c: Codec, storage: Storage, events: seq<EventRecord>) {
    Load(c, storage.slot).Success? && Load(c, storage.slot).value <= events
  }

  /** Whole application state after the initial load. `view` is a string in
      the source; `form` is the mounted form's state. */
  datatype AppState = AppState(events: seq<EventRecord>, view: string, form: FormState, storage: Storage)

  predicate KnownView(v: string) {
    v == "create" || v == "list"
  }

  /** Mounting the app and running its load effect; `now` is the time the form
      is first mounted. A slot that does not parse aborts start-up. */
  function Start(c: Codec, storage: Storage, now: int): (r: Result<AppState, LoadError>)
    ensures r.Success? <==> Load(c, storage.slot).Success?
    ensures r.Success? ==>
      && Load(c, storage.slot) == Result.Success(r.value.events)
      && r.value.view == "create" && r.value.form == InitialForm(now) && r.value.storage == storage
  {
    match Load(c, storage.slot)
    case Success(xs) => Success(AppState(xs, "create", InitialForm(now), storage))
    case Failure(e) => Failure(e)
  }

  /** Nothing is stored yet: the app starts with no events. */
  lemma StartWithEmptySlot(c: Codec, quota: nat, now: int)
    requires Lossless(c)
    ensures Start(c, Storage(None, quota), now) == Result.Success(AppState([], "create", InitialForm(now), Storage(None, quota)))
  {
  }

  /** The outcome of `addEvent`: the new state, and whether `setItem` threw. */
  datatype Added = Added(state: AppState, threw: bool)

  /** `addEvent`: append the record in memory, then write the whole new list
      to the slot. `setEvents` runs before `setItem`, so a quota failure
      leaves the record in memory but not in storage, and the exception
      propagates to the caller. */
  function AddEvent(c: Codec, s: AppState, e: EventRecord): (r: Added)
    ensures |r.state.events| == |s.events| + 1
    ensures r.state.events[..|s.events|] == s.events && r.state.events[|s.events|] == e
    ensures r.state.view == s.view && r.state.form == s.form
    ensures r.state.storage.quota == s.storage.quota
    ensures !r.threw ==> r.state.storage.slot == Some(c.serialize(r.state.events))
    ensures r.threw ==> r.state.storage == s.storage
    ensures r.threw <==> |c.serialize(s.events + [e])| > s.storage.quota
  {
    var updated := s.events + [e];
    var text := c.serialize(updated);
    if |text| <= s.storage.quota then
      Added(s.(events := updated, storage := s.storage.(slot := Some(text))), false)
    else
      Added(s.(events := updated), true)
  }

  /** Reading the slot back after a successful `addEvent` gives the previous
      list followed by the new record. */
  lemma AddEventRoundTrip(c: Codec, s: AppState, e: EventRecord)
    requires Lossless(c)
    requires !AddEvent(c, s, e).threw
    ensures Load(c, AddEvent(c, s, e).state.storage.slot) == Result.Success(s.events + [e])
  {
    var r := AddEvent(c, s, e);
    assert r.state.events == s.events + [e];
    assert c.serialize(r.state.events) != "";
  }

  /** A user action. `now` stands for `new Date()` when the form is mounted or
      reset, `id` for `Date.now()` at submit. */
  datatype Action =
    | ShowCreate(now: int)
    | ShowList
    | EditForm(edit: Edit)
    | ChooseFile(file: Option<MediaFile>)
    | SubmitForm(id: int, now: int)

  /** One action. The form exists only while `view` is `"create"`; switching
      back to it mounts a fresh form. `iso` stands for `toISOString` and
      `toDataUrl` for `canvas.toDataURL`. */
  function Step(c: Codec, iso: int -> string, toDataUrl: Drawing -> string,
                s: AppState, a: Action): (r: AppState)
    ensures s.events <= r.events && |r.events| <= |s.events| + 1
    ensures r.storage.quota == s.storage.quota
    ensures !a.SubmitForm? || s.view != "create" ==> r.events == s.events && r.storage == s.storage
    ensures a.ShowCreate? ==> r.view == "create" && (s.view == "create" ==> r == s)
    ensures a.ShowCreate? && s.view != "create" ==> r.form == InitialForm(a.now)
    ensures a.ShowList? ==> r.view == "list" && r.form == s.form
    ensures !a.ShowCreate? && !a.ShowList? ==> r.view == s.view
    ensures (a.EditForm? || a.ChooseFile?) && s.view != "create" ==> r == s
    ensures a.EditForm? && s.view == "create" ==> r.form == ApplyEdit(s.form, a.edit)
    ensures a.ChooseFile? && s.view == "create" ==> r.form == HandleFileChange(s.form, a.file)
  {
    match a
    case ShowCreate(now) =>
      if s.view == "create" then s else s.(view := "create", form := InitialForm(now))
    case ShowList => s.(view := "list")
    case EditForm(ed) =>
      if s.view == "create" then s.(form := ApplyEdit(s.form, ed)) else s
    case ChooseFile(f) =>
      if s.view == "create" then s.(form := HandleFileChange(s.form, f)) else s
    case SubmitForm(id, now) =>
      if s.view != "create" then s
      else
        var r := Submit(s.form, id, now, iso, toDataUrl, e => AddEvent(c, s, e).threw);
        match r.added
        case None => s.(form := r.form)
        case Some(e) => AddEvent(c, s, e).state.(form := r.form)
  }

  /** A sequence of actions applied in order. */
  function Run(c: Codec, iso: int -> string, toDataUrl: Drawing -> string,
               s: AppState, actions: seq<Action>): (r: AppState)
    ensures r.storage.quota == s.storage.quota
    ensures |r.events| <= |s.events| + |actions|
    decreases |actions|
  {
    if actions == [] then s else Run(c, iso, toDataUrl, Step(c, iso, toDataUrl, s, actions[0]), actions[1..])
  }

  /** A submit that fails validation returns before `addEvent`: the list and
      the storage are untouched and the form holds the validation errors. */
  lemma InvalidSubmitLeavesStore(c: Codec, iso: int -> string, toDataUrl: Drawing -> string,
                                 s: AppState, id: int, now: int)
    requires s.view == "create"
    requires exists k :: !Passes(s.form.draft, k)
    ensures var s' := Step(c, iso, toDataUrl, s, SubmitForm(id, now));
      s'.events == s.events && s'.storage == s.storage
      && s'.form == FormState(s.form.draft, Validate(s.form.draft))
  {
  }

  /** A complete draft whose media resizes and whose new list fits the slot
      adds exactly one record, persists the new list, and resets the form. */
  lemma ValidSubmitAppends(c: Codec, iso: int -> string, toDataUrl: Drawing -> string,
                           s: AppState, id: int, now: int)
    requires Lossless(c)
    requires s.view == "create"
    requires forall k :: Passes(s.form.draft, k)
    requires s.form.draft.media.Some? && MediaUtils.ResizeMedia(s.form.draft.media.value.file).Resolved?
    requires s.form.draft.startDate.Some? && s.form.draft.endDate.Some?
    requires var d := s.form.draft;
      var data := toDataUrl(MediaUtils.ResizeMedia(d.media.value.file).value);
      var e := EventRecord(id, d.community, d.title, iso(d.startDate.value), iso(d.endDate.value),
                           d.location, d.description, StoredMedia(d.media.value.kind, data));
      |c.serialize(s.events + [e])| <= s.storage.quota
    ensures var s' := Step(c, iso, toDataUrl, s, SubmitForm(id, now));
      && |s'.events| == |s.events| + 1 && s'.events[..|s.events|] == s.events
      && Load(c, s'.storage.slot) == Result.Success(s'.events)
      && s'.form == FormState(ResetDraft(now), map[])
      && var e := s'.events[|s.events|];
         e.id == id && e.community == s.form.draft.community && e.title == s.form.draft.title
         && e.location == s.form.draft.location && e.description == s.form.draft.description
  {
    var r := Submit(s.form, id, now, iso, toDataUrl, e => AddEvent(c, s, e).threw);
    var e := r.added.value;
    AddEventRoundTrip(c, s, e);
  }

  /** `view` only ever holds "create" or "list". */
  lemma {:induction false} ViewStaysKnown(c: Codec, iso: int -> string, toDataUrl: Drawing -> string,
                                          s: AppState, actions: seq<Action>)
    requires KnownView(s.view)
    ensures KnownView(Run(c, iso, toDataUrl, s, actions).view)
    decreases |actions|
  {
    if actions != [] {
      ViewStaysKnown(c, iso, toDataUrl, Step(c, iso, toDataUrl, s, actions[0]), actions[1..]);
    }
  }

  /** Events are only ever appended: the list before any run of actions is a
      prefix of the list after it. */
  lemma {:induction false} EventsOnlyGrow(c: Codec, iso: int -> string, toDataUrl: Drawing -> string,
                                          s: AppState, actions: seq<Action>)
    ensures s.events <= Run(c, iso, toDataUrl, s, actions).events
    decreases |actions|
  {
    if actions != [] {
      var s1 := Step(c, iso, toDataUrl, s, actions[0]);
      assert s.events <= s1.events;
      EventsOnlyGrow(c, iso, toDataUrl, s1, actions[1..]);
    }
  }

  /** Storage never runs ahead of memory: whatever the slot holds parses to a
      prefix of the in-memory list, and after a write that fits it holds the
      whole list. */
  lemma StepKeepsStoredPrefix(c: Codec, iso: int -> string, toDataUrl: Drawing -> string,
                              s: AppState, a: Action)
    requires Lossless(c)
    requires StoresPrefixOf(c, s.storage, s.events)
    ensures StoresPrefixOf(c, Step(c, iso, toDataUrl, s, a).storage, Step(c, iso, toDataUrl, s, a).events)
  {
    if a.SubmitForm? && s.view == "create" {
      var r := Submit(s.form, a.id, a.now, iso, toDataUrl, e => AddEvent(c, s, e).threw);
      if r.added.Some? {
        var ad := AddEvent(c, s, r.added.value);
        if !ad.threw {
          AddEventRoundTrip(c, s, r.added.value);
        } else {
          assert s.events <= ad.state.events;
        }
      }
    }
  }

  /** The same over any run of actions, from the state start-up produces. */
  lemma {:induction false} RunKeepsStoredPrefix(c: Codec, iso: int -> string, toDataUrl: Drawing -> string,
                                                s: AppState, actions: seq<Action>)
    requires Lossless(c)
    requires StoresPrefixOf(c, s.storage, s.events)
    ensures StoresPrefixOf(c, Run(c, iso, toDataUrl, s, actions).storage, Run(c, iso, toDataUrl, s, actions).events)
    decreases |actions|
  {
    if actions != [] {
      StepKeepsStoredPrefix(c, iso, toDataUrl, s, actions[0]);
      RunKeepsStoredPrefix(c, iso, toDataUrl, Step(c, iso, toDataUrl, s, actions[0]), actions[1..]);
    }
  }

  /** Start-up establishes that invariant. */
  lemma StartStoresPrefix(c: Codec, storage: Storage, now: int)
    requires Start(c, storage, now).Success?
    ensures var s := Start(c, storage, now).value;
      StoresPrefixOf(c, s.storage, s.events) && Load(c, s.storage.slot).value == s.events
  {
  }

  /** What the main area shows. */
  datatype Screen = FormScreen(form: FormState) | ListScreen(events: seq<EventRecord>)

  /** `view === "create"` shows the form; any other value shows the list. */
  function Render(s: AppState): (r: Screen)
    ensures r.FormScreen? <==> s.view == "create"
    ensures r.ListScreen? ==> r.events == s.events
  {
    if s.view == "create" then FormScreen(s.form) else ListScreen(s.events)
  }
}

=== FILE: event_form.dfy ===
/** The create-event form: the draft it edits, `validateForm`'s error map,
    `handleFileChange`'s MIME check and `handleSubmit`'s record construction. */
module EventForm {
  import opened Wrappers
  import opened Media
  import opened JsString
  import MediaUtils

  /** The options of the community `<select>`. */
  const CommunityOptions: seq<string> := ["Indiranagar Run Club", "Bhag Club", "Art Club", "Book Lovers Club"]
  /** The community a freshly mounted form starts with. */
  const InitialCommunity: string := "Indiranagar Run Club"
  /** The community the form is reset to after a successful submit. */
  const ResetCommunity: string := "Fitness Club"

  /** A chosen file with the kind recorded for it. */
  datatype Attachment = Attachment(file: MediaFile, kind: MediaKind)

  /** `formData`. Dates are instants in milliseconds; the date picker hands
      `null` when its input is cleared. */
  datatype Draft = Draft(
    community: string,
    title: string,
    startDate: Option<int>,
    endDate: Option<int>,
    location: string,
    description: string,
    media: Option<Attachment>)

  /** The draft a newly mounted form holds; `now` stands for both of the
      `new Date()` calls that fill the two dates. */
  function InitialDraft(now: int): Draft {
    Draft(InitialCommunity, "", Some(now), Some(now), "", "", None)
  }

  /** The draft the form holds after a successful submit. */
  function ResetDraft(now: int): Draft {
    Draft(ResetCommunity, "", Some(now), Some(now), "", "", None)
  }

  /** The reset draft differs from a fresh one only in its community, which
      is not one the select offers. */
  lemma ResetDiffersOnlyInCommunity(now: int)
    ensures ResetDraft(now) == InitialDraft(now).(community := ResetCommunity)
    ensures ResetCommunity != InitialCommunity
    ensures InitialCommunity in CommunityOptions && ResetCommunity !in CommunityOptions
  {
  }

  /** The keys of the error map. */
  datatype Field = CommunityKey | TitleKey | DatesKey | LocationKey | DescriptionKey | MediaKey

  /** The error map; a key set to `null` in the source is an absent key here,
      since every reader treats the two alike. */
  type Errors = map<Field, string>

  /** `formData` together with `errors`. */
  datatype FormState = FormState(draft: Draft, errors: Errors)

  function InitialForm(now: int): FormState {
    FormState(InitialDraft(now), map[])
  }

  /** The message `validateForm` stores under each key. */
  function RequiredMessage(k: Field): string {
    match k
    case CommunityKey => "Community is required"
    case TitleKey => "Title is required"
    case DatesKey => "End date must be after start"
    case LocationKey => "Location is required"
    case DescriptionKey => "Description is required"
    case MediaKey => "Media is required"
  }

  /** The number a date turns into under `>`: its time value, or 0 for `null`. */
  function JsTime(d: Option<int>): int {
    match d
    case Some(t) => t
    case None => 0
  }

  /** What each field must satisfy, stated without `trim`. */
  predicate Passes(d: Draft, k: Field) {
    match k
    case CommunityKey => d.community != ""
    case TitleKey => HasContent(d.title)
    case DatesKey => JsTime(d.startDate) <= JsTime(d.endDate)
    case LocationKey => HasContent(d.location)
    case DescriptionKey => HasContent(d.description)
    case MediaKey => d.media.Some?
  }

  /** Every entry of `e` carries `validateForm`'s message for its key. */
  predicate HasRequiredMessages(e: Errors) {
    forall k :: k in e ==> e[k] == RequiredMessage(k)
  }

  /** Adds `k` with its message when `failed` holds. */
  function Flag(e: Errors, k: Field, failed: bool): (r: Errors)
    requires HasRequiredMessages(e)
    ensures r.Keys == if failed then e.Keys + {k} else e.Keys
    ensures HasRequiredMessages(r)
  {
    if failed then e[k := RequiredMessage(k)] else e
  }

  /** The error map `validateForm` builds: one entry, with its message, for
      every field that fails its check, and nothing else. A text field fails
      when it has no character besides whitespace. */
  function Validate(d: Draft): (e: Errors)
    ensures CommunityKey in e <==> d.community == ""
    ensures TitleKey in e <==> !HasContent(d.title)
    ensures DatesKey in e <==> JsTime(d.startDate) > JsTime(d.endDate)
    ensures LocationKey in e <==> !HasContent(d.location)
    ensures DescriptionKey in e <==> !HasContent(d.description)
    ensures MediaKey in e <==> d.media.None?
    ensures HasRequiredMessages(e)
  {
    TrimEmptyIffBlank(d.title);
    TrimEmptyIffBlank(d.location);
    TrimEmptyIffBlank(d.description);
    var titleBlank, locationBlank, descriptionBlank := Trim(d.title) == "", Trim(d.location) == "", Trim(d.description) == "";
    var e := Flag(map[], CommunityKey, d.community == "");
    var e := Flag(e, TitleKey, titleBlank);
    var e := Flag(e, DatesKey, JsTime(d.startDate) > JsTime(d.endDate));
    var e := Flag(e, LocationKey, locationBlank);
    var e := Flag(e, DescriptionKey, descriptionBlank);
    Flag(e, MediaKey, d.media.None?)
  }

  /** Every field of the error map is one of the failing ones. */
  lemma ValidateReportsFailures(d: Draft)
    ensures forall k :: k in Validate(d) <==> !Passes(d, k)
  {
    forall k
      ensures k in Validate(d) <==> !Passes(d, k)
    {
      match k
      case CommunityKey =>
      case TitleKey =>
      case DatesKey =>
      case LocationKey =>
      case DescriptionKey =>
      case MediaKey =>
    }
  }

  /** `validateForm`'s return value, `Object.keys(newErrors).length === 0`:
      true exactly when every field passes. */
  lemma ValidIffAllPass(d: Draft)
    ensures |Validate(d)| == 0 <==> forall k :: Passes(d, k)
  {
    var e := Validate(d);
    ValidateReportsFailures(d);
    if |e| != 0 {
      var k :| k in e;
      assert !Passes(d, k);
    } else {
      assert e == map[];
    }
  }

  /** Equal start and end instants are accepted; only a start after the end is
      reported. */
  lemma EqualDatesAccepted(d: Draft)
    requires d.startDate.Some? && d.startDate == d.endDate
    ensures DatesKey !in Validate(d)
  {
  }

  /** `handleFileChange`: no file changes nothing; a type that is neither
      `image/` nor `video/` sets the media error and keeps the draft; any other
      file is attached with its kind and clears the media error. */
  function HandleFileChange(form: FormState, file: Option<MediaFile>): (r: FormState)
    ensures file.None? ==> r == form
    ensures file.Some? && !IsImageMime(file.value.mime) && !IsVideoMime(file.value.mime) ==>
      r.draft == form.draft && r.errors == form.errors[MediaKey := "Invalid file type"]
    ensures file.Some? && (IsImageMime(file.value.mime) || IsVideoMime(file.value.mime)) ==>
      && r.draft.media.Some? && r.draft.media.value.file == file.value
      && (r.draft.media.value.kind == Image <==> IsImageMime(file.value.mime))
      && r.draft == form.draft.(media := r.draft.media)
      && r.errors == form.errors - {MediaKey}
  {
    match file
    case None => form
    case Some(f) =>
      if !IsImageMime(f.mime) && !IsVideoMime(f.mime) then
        FormState(form.draft, form.errors[MediaKey := "Invalid file type"])
      else
        var kind := if IsImageMime(f.mime) then Image else Video;
        FormState(form.draft.(media := Some(Attachment(f, kind))), form.errors - {MediaKey})
  }

  /** A file the form accepts is never refused by `resizeMedia` for its type,
      and the kind recorded for it names the path `resizeMedia` takes. */
  lemma AcceptedFileIsResizable(form: FormState, f: MediaFile)
    requires IsImageMime(f.mime) || IsVideoMime(f.mime)
    ensures MediaUtils.ResizeMedia(f) != Rejected(UnsupportedFileType)
    ensures var a := HandleFileChange(form, Some(f)).draft.media.value;
      a.kind == Image ==> MediaUtils.ResizeMedia(f) == MediaUtils.ResizeImage(f)
    ensures var a := HandleFileChange(form, Some(f)).draft.media.value;
      a.kind == Video ==> MediaUtils.ResizeMedia(f) == MediaUtils.ResizeVideoFrame(f)
  {
    MimeClassesDisjoint(f.mime);
  }

  /** A form field edited through its input, picker or select. */
  datatype Edit =
    | SetCommunity(community: string)
    | SetTitle(title: string)
    | SetStart(startDate: Option<int>)
    | SetEnd(endDate: Option<int>)
    | SetLocation(location: string)
    | SetDescription(description: string)

  /** The `onChange` handlers: each replaces one draft field and leaves the
      error map and every other field alone. */
  function ApplyEdit(form: FormState, e: Edit): (r: FormState)
    ensures r.errors == form.errors
    ensures e.SetCommunity? ==> r.draft == form.draft.(community := e.community)
    ensures e.SetTitle? ==> r.draft == form.draft.(title := e.title)
    ensures e.SetStart? ==> r.draft == form.draft.(startDate := e.startDate)
    ensures e.SetEnd? ==> r.draft == form.draft.(endDate := e.endDate)
    ensures e.SetLocation? ==> r.draft == form.draft.(location := e.location)
    ensures e.SetDescription? ==> r.draft == form.draft.(description := e.description)
  {
    var d := form.draft;
    var d' := match e
      case SetCommunity(c) => d.(community := c)
      case SetTitle(t) => d.(title := t)
      case SetStart(s) => d.(startDate := s)
      case SetEnd(t) => d.(endDate := t)
      case SetLocation(l) => d.(location := l)
      case SetDescription(s) => d.(description := s);
    FormState(d', form.errors)
  }

  /** The error key that reports on the field an edit changes. */
  function EditedKey(e: Edit): Field {
    match e
    case SetCommunity(_) => CommunityKey
    case SetTitle(_) => TitleKey
    case SetStart(_) => DatesKey
    case SetEnd(_) => DatesKey
    case SetLocation(_) => LocationKey
    case SetDescription(_) => DescriptionKey
  }

  /** Editing one field changes what validation would report for that field's
      key only; every other key fails after the edit exactly when it failed
      before. */
  lemma EditRevalidatesOneKey(form: FormState, e: Edit, k: Field)
    requires k != EditedKey(e)
    ensures k in Validate(ApplyEdit(form, e).draft) <==> k in Validate(form.draft)
  {
    var d, d' := form.draft, ApplyEdit(form, e).draft;
    match k
    case CommunityKey => assert d'.community == d.community;
    case TitleKey => assert d'.title == d.title;
    case DatesKey => assert d'.startDate == d.startDate && d'.endDate == d.endDate;
    case LocationKey => assert d'.location == d.location;
    case DescriptionKey => assert d'.description == d.description;
    case MediaKey => assert d'.media == d.media;
  }

  /** `{type, data}` of a stored event; `data` is the JPEG data URL that
      `canvas.toDataURL` returned for the resized drawing. */
  datatype StoredMedia = StoredMedia(kind: MediaKind, data: string)

  /** An event as handed to `addEvent` and persisted. */
  datatype EventRecord = EventRecord(
    id: int,
    community: string,
    title: string,
    startDate: string,
    endDate: string,
    location: string,
    description: string,
    media: StoredMedia)

  /** The form after a submit, and the record passed to `addEvent`, if any. */
  datatype SubmitResult = SubmitResult(form: FormState, added: Option<EventRecord>)

  /** The form after the `catch` branch of `handleSubmit`. */
  function ProcessingFailed(d: Draft): FormState {
    FormState(d, map[MediaKey := "Error processing media"])
  }

  /** `handleSubmit` run to completion. `id` stands for `Date.now()`, `now` for
      the `new Date()` of the reset, `iso` for `toISOString`, `toDataUrl` for
      the `canvas.toDataURL` that ends `resizeMedia`, and
      `addEventThrows` says whether the store's `addEvent` throws for a record.
      A `null` date passes validation but makes `toISOString` throw. */
  function Submit(form: FormState, id: int, now: int, iso: int -> string, toDataUrl: Drawing -> string,
                  addEventThrows: EventRecord -> bool): (r: SubmitResult)
    ensures r.added.Some? <==>
      && (forall k :: Passes(form.draft, k))
      && form.draft.media.Some? && MediaUtils.ResizeMedia(form.draft.media.value.file).Resolved?
      && form.draft.startDate.Some? && form.draft.endDate.Some?
    ensures (exists k :: !Passes(form.draft, k)) ==> r.form == FormState(form.draft, Validate(form.draft))
    ensures r.added.Some? ==>
      var e := r.added.value;
      && e.id == id
      && e.community == form.draft.community && e.title == form.draft.title
      && e.location == form.draft.location && e.description == form.draft.description
      && e.startDate == iso(form.draft.startDate.value) && e.endDate == iso(form.draft.endDate.value)
      && form.draft.media.Some? && e.media.kind == form.draft.media.value.kind
      && MediaUtils.ResizeMedia(form.draft.media.value.file).Resolved?
      && e.media.data == toDataUrl(MediaUtils.ResizeMedia(form.draft.media.value.file).value)
    ensures r.added.Some? && !addEventThrows(r.added.value) ==> r.form == FormState(ResetDraft(now), map[])
    ensures r.added.None? || addEventThrows(r.added.value) ==> r.form.draft == form.draft
    ensures
      && (forall k :: Passes(form.draft, k)) && form.draft.media.Some?
      && MediaUtils.ResizeMedia(form.draft.media.value.file).Pending?
      ==> r.form == FormState(form.draft, map[])
    ensures
      && (forall k :: Passes(form.draft, k)) && form.draft.media.Some?
      && !MediaUtils.ResizeMedia(form.draft.media.value.file).Pending?
      && (r.added.None? || addEventThrows(r.added.value))
      ==> r.form == ProcessingFailed(form.draft)
  {
    var d := form.draft;
    var errors := Validate(d);
    ValidIffAllPass(d);
    if |errors| != 0 then
      SubmitResult(FormState(d, errors), None)
    else
      var attachment := d.media.value;
      match MediaUtils.ResizeMedia(attachment.file)
      case Pending => SubmitResult(FormState(d, errors), None)
      case Rejected(_) => SubmitResult(ProcessingFailed(d), None)
      case Resolved(data) =>
        if d.startDate.None? || d.endDate.None? then
          SubmitResult(ProcessingFailed(d), None)
        else
          var record := EventRecord(id, d.community, d.title, iso(d.startDate.value), iso(d.endDate.value),
                                    d.location, d.description, StoredMedia(attachment.kind, toDataUrl(data)));
          if addEventThrows(record) then SubmitResult(ProcessingFailed(d), Some(record))
          else SubmitResult(FormState(ResetDraft(now), map[]), Some(record))
  }
}

=== FILE: geometry.dfy ===
/** Rectangles in source-pixel coordinates and the aspect-ratio test both
    resize routines perform. All arithmetic is exact (`real`). */
module Geometry {

  /** A source rectangle as passed to `drawImage(img, x, y, w, h, ...)`. */
  datatype Rect = Rect(x: real, y: real, w: real, h: real)

  /** The width:height ratio every normalised picture has, 4:5. */
  const FillRatio: real := 4.0 / 5.0

  /** `r` has width:height exactly 4:5 (no remainder distortion). */
  predicate IsFourByFive(r: Rect) {
    r.w * 5.0 == r.h * 4.0
  }

  /** `r` lies within a `w` by `h` source. */
  predicate Inside(r: Rect, w: nat, h: nat) {
    0.0 <= r.x && r.x + r.w <= w as real && 0.0 <= r.y && r.y + r.h <= h as real
  }

  /** `r` has the same centre as a `w` by `h` source. */
  predicate Centred(r: Rect, w: nat, h: nat) {
    r.x + r.w / 2.0 == (w as real) / 2.0 && r.y + r.h / 2.0 == (h as real) / 2.0
  }

  /** The whole `w` by `h` source. */
  function Whole(w: nat, h: nat): Rect {
    Rect(0.0, 0.0, w as real, h as real)
  }

  /** JavaScript's `w / h > ratio` on image dimensions. When `h` is 0 the
      quotient is +Infinity for a positive `w` (so the test holds) and NaN for
      `w == 0` (so it fails). */
  predicate WiderThan(w: nat, h: nat, ratio: real) {
    if h == 0 then w > 0 else (w as real) / (h as real) > ratio
  }

  /** The ratio test agrees with comparing cross products, whatever `h` is. */
  lemma WiderThanFillRatio(w: nat, h: nat)
    ensures WiderThan(w, h, FillRatio) <==> (w as real) * 5.0 > (h as real) * 4.0
  {
    if h > 0 {
      var hr := h as real;
      var q := (w as real) / hr;
      assert (w as real) == q * hr;
      if q > FillRatio {
        assert q * hr > FillRatio * hr;
      } else {
        assert q * hr <= FillRatio * hr;
      }
    }
  }
}

=== FILE: js_string.dfy ===
/** The two JavaScript string operations the form and the media code rely on:
    `String.prototype.startsWith` and `String.prototype.trim`. */
module JsString {

  /** `s.startsWith(prefix)`. */
  predicate StartsWith(s: string, prefix: string) {
    |prefix| <= |s| && s[..|prefix|] == prefix
  }

  /** The characters `trim` removes: ECMAScript's WhiteSpace (tab, vertical tab,
      form feed, space, the other space separators of category Zs, the byte
      order mark) and LineTerminator (line feed, carriage return, line and
      paragraph separator). */
  predicate IsWhitespace(c: char) {
    if c <= ' ' then c == ' ' || '\t' <= c <= '\r'
    else c >= '\U{A0}' && IsWideWhitespace(c)
  }

  /** The whitespace characters beyond ASCII. */
  predicate IsWideWhitespace(c: char) {
    || c == '\U{A0}' || c == '\U{1680}' || '\U{2000}' <= c <= '\U{200A}'
    || c == '\U{2028}' || c == '\U{2029}' || c == '\U{202F}' || c == '\U{205F}'
    || c == '\U{3000}' || c == '\U{FEFF}'
  }

  /** True when `s` holds a character that `trim` keeps. */
  predicate HasContent(s: string) {
    exists i :: 0 <= i < |s| && !IsWhitespace(s[i])
  }

  /** `r` occurs in `s` starting at index `i`. */
  predicate OccursAt(r: string, s: string, i: int) {
    0 <= i && i + |r| <= |s| && s[i..i + |r|] == r
  }

  /** `r` occurs in `s` at index `i`, and everything before and after that
      occurrence is whitespace. */
  predicate TrimmedAt(r: string, s: string, i: int) {
    && OccursAt(r, s, i)
    && (forall j :: 0 <= j < i ==> IsWhitespace(s[j]))
    && (forall j :: i + |r| <= j < |s| ==> IsWhitespace(s[j]))
  }

  /** How many whitespace characters `s` starts with. */
  function LeadingWhitespace(s: string): (n: nat)
    ensures n <= |s|
    ensures forall i :: 0 <= i < n ==> IsWhitespace(s[i])
    ensures n < |s| ==> !IsWhitespace(s[n])
  {
    if |s| == 0 || !IsWhitespace(s[0]) then 0
    else
      var n := 1 + LeadingWhitespace(s[1..]);
      assert forall i :: 1 <= i < n ==> s[i] == s[1..][i - 1];
      n
  }

  /** The length of `s` without its trailing whitespace. */
  function ContentEnd(s: string): (n: nat)
    ensures n <= |s|
    ensures forall i :: n <= i < |s| ==> IsWhitespace(s[i])
    ensures n > 0 ==> !IsWhitespace(s[n - 1])
  {
    if |s| == 0 || !IsWhitespace(s[|s| - 1]) then |s|
    else ContentEnd(s[..|s| - 1])
  }

  /** `s.trim()`: the part of `s` between its leading and its trailing
      whitespace. */
  function Trim(s: string): (r: string)
    ensures r != [] ==> !IsWhitespace(r[0]) && !IsWhitespace(r[|r| - 1])
    ensures exists i :: TrimmedAt(r, s, i)
  {
    var a, b := LeadingWhitespace(s), ContentEnd(s);
    if a < b then
      assert TrimmedAt(s[a..b], s, a);
      s[a..b]
    else
      assert TrimmedAt([], s, 0);
      []
  }

  /** `!s.trim()`: the string is empty once trimmed exactly when every one of
      its characters is whitespace. */
  lemma TrimEmptyIffBlank(s: string)
    ensures Trim(s) == [] <==> !HasContent(s)
  {
    var a, b := LeadingWhitespace(s), ContentEnd(s);
    if a < b {
      assert !IsWhitespace(s[a]);
    }
  }
}

=== FILE: media.dfy ===
/** What the browser hands the media code: a selected file, what decoding it
    yields, and the canvas drawing whose JPEG data URL is the stored payload. */
module Media {
  import opened Geometry
  import JsString

  /** What reading and decoding a file produces: the pixel size of the decoded
      image (or of the video's frames), or the stage that failed. */
  datatype Decoding =
    | Decoded(width: nat, height: nat)
    | ReadFails      // FileReader reports an error
    | DecodeFails    // the bytes are read but no picture can be decoded from them

  /** A file from `<input type="file">`: its MIME type (`file.type`), the data
      URL `FileReader.readAsDataURL` yields for it, and how decoding it ends. */
  datatype MediaFile = MediaFile(mime: string, dataUrl: string, content: Decoding)

  /** The `type` recorded with a chosen file: "image" or "video". */
  datatype MediaKind = Image | Video

  predicate IsImageMime(mime: string) {
    JsString.StartsWith(mime, "image/")
  }

  predicate IsVideoMime(mime: string) {
    JsString.StartsWith(mime, "video/")
  }

  /** No MIME type is both an image and a video type. */
  lemma MimeClassesDisjoint(mime: string)
    ensures !(IsImageMime(mime) && IsVideoMime(mime))
  {
  }

  /** What is drawn onto the canvas: a decoded still image, or the frame of a
      video at the given time in seconds. */
  datatype Picture = Still | FrameAt(seconds: real)

  /** A canvas of `width` by `height` pixels onto which `region` of `picture`
      is drawn scaled to fill it, then exported with
      `canvas.toDataURL("image/jpeg", quality)`. The JPEG bytes themselves are
      not modelled: a drawing stands for the data URL it produces. */
  datatype Drawing = Jpeg(picture: Picture, region: Rect, width: nat, height: nat, quality: real)

  /** Why a resize promise rejects: `new Error("Unsupported file type")`, the
      FileReader's error event, or the video element's error event. */
  datatype MediaError = UnsupportedFileType | ReadError | DecodeError
}

=== FILE: media_upload.dfy ===
/** The `useMediaUpload` hook: it classifies a chosen file as image or video,
    crops images to 4:5 from the top-left corner onto an 800 by 1000 canvas,
    and passes videos through as their raw data URL. */
module MediaUpload {
  import opened Wrappers
  import opened Geometry
  import opened Media
  import MediaUtils
  import EventForm

  const CanvasWidth: nat := 800
  const CanvasHeight: nat := 1000
  const JpegQuality: real := 0.9

  /** The source rectangle the hook draws: the same size as the centred crop,
      but anchored at the source's top-left corner. */
  function CornerCrop(w: nat, h: nat): (r: Rect)
    ensures r.x == 0.0 && r.y == 0.0
    ensures IsFourByFive(r)
    ensures Inside(r, w, h)
  {
    WiderThanFillRatio(w, h);
    var width := if WiderThan(w, h, FillRatio) then (h as real) * FillRatio else w as real;
    var height := if WiderThan(w, h, FillRatio) then h as real else (w as real) / FillRatio;
    Rect(0.0, 0.0, width, height)
  }

  /** Both crops cut a rectangle of the same size. */
  lemma CornerCropSizeAgrees(w: nat, h: nat)
    ensures CornerCrop(w, h).w == MediaUtils.CropToFill(w, h).w
    ensures CornerCrop(w, h).h == MediaUtils.CropToFill(w, h).h
  {
    WiderThanFillRatio(w, h);
  }

  /** The two crops coincide exactly when the source is already 4:5; otherwise
      the hook's preview shows the top or left part of the picture instead of
      its middle. */
  lemma CornerCropIsCentredIff(w: nat, h: nat)
    ensures CornerCrop(w, h) == MediaUtils.CropToFill(w, h) <==> w * 5 == h * 4
  {
    CornerCropSizeAgrees(w, h);
    MediaUtils.CropIsWholeIffFourByFive(w, h);
    var c, r := CornerCrop(w, h), MediaUtils.CropToFill(w, h);
    if w * 5 != h * 4 {
      if r.w == w as real {
        assert r.h != h as real;
        assert r.y != 0.0;
      } else {
        assert r.h == h as real;
        assert r.x != 0.0;
      }
    }
  }

  /** The hook's preview: either the JPEG of a drawing or the file's data URL. */
  datatype Preview = Resized(drawing: Drawing) | RawDataUrl(url: string)

  /** The hook's state, `mediaPreview` and `mediaType`, both null at first. */
  datatype UploadState = UploadState(preview: Option<Preview>, mediaType: Option<MediaKind>)

  /** The kind the hook records: "image" for an `image/` type, "video" for
      every other type, with no rejection. */
  function UploadKind(mime: string): (k: MediaKind)
    ensures k == Image <==> IsImageMime(mime)
  {
    if IsImageMime(mime) then Image else Video
  }

  /** `handleMediaUpload` once every callback it schedules has run. Neither
      the FileReader nor the image element has an error handler, so a failed
      read, or an image that does not decode, leaves the preview as it was. */
  function HandleMediaUpload(s: UploadState, file: Option<MediaFile>): (s': UploadState)
    ensures file.None? ==> s' == s
    ensures file.Some? ==> s'.mediaType == Some(UploadKind(file.value.mime))
    ensures file.Some? && s'.preview != s.preview ==> file.value.content != ReadFails
    ensures file.Some? && s'.preview.Some? && s'.preview.value.Resized? && s'.preview != s.preview ==>
      var d := s'.preview.value.drawing;
      IsImageMime(file.value.mime) && d.width == CanvasWidth && d.height == CanvasHeight
      && d.region.x == 0.0 && d.region.y == 0.0 && IsFourByFive(d.region)
    ensures file.Some? && !IsImageMime(file.value.mime) && file.value.content != ReadFails ==>
      s'.preview == Some(RawDataUrl(file.value.dataUrl))
    ensures file.Some? && IsImageMime(file.value.mime) && file.value.content.Decoded? ==>
      var c := file.value.content;
      s'.preview == Some(Resized(Jpeg(Still, CornerCrop(c.width, c.height), CanvasWidth, CanvasHeight, JpegQuality)))
    ensures file.Some? && (file.value.content == ReadFails
                           || (IsImageMime(file.value.mime) && file.value.content == DecodeFails)) ==>
      s'.preview == s.preview
  {
    match file
    case None => s
    case Some(f) =>
      var kind := UploadKind(f.mime);
      var preview :=
        match f.content
        case ReadFails => s.preview
        case DecodeFails => if kind == Image then s.preview else Some(RawDataUrl(f.dataUrl))
        case Decoded(w, h) =>
          if kind == Image then Some(Resized(Jpeg(Still, CornerCrop(w, h), CanvasWidth, CanvasHeight, JpegQuality)))
          else Some(RawDataUrl(f.dataUrl));
      UploadState(preview, Some(kind))
  }

  /** The canvas the hook draws on is itself 4:5, so the 4:5 crop is scaled by
      one factor in both directions. */
  lemma CornerCropScalesUniformly(w: nat, h: nat)
    requires w > 0 && h > 0
    ensures var r := CornerCrop(w, h);
      r.w > 0.0 && r.h > 0.0 && (CanvasWidth as real) / r.w == (CanvasHeight as real) / r.h
  {
    var r := CornerCrop(w, h);
    WiderThanFillRatio(w, h);
    assert r.h == r.w * 5.0 / 4.0;
  }

  /** Where the form accepts a file, the hook records the same kind for it. */
  lemma UploadKindAgreesWithForm(form: EventForm.FormState, f: MediaFile)
    requires IsImageMime(f.mime) || IsVideoMime(f.mime)
    ensures EventForm.HandleFileChange(form, Some(f)).draft.media == Some(EventForm.Attachment(f, UploadKind(f.mime)))
  {
  }

  /** Where the form rejects a file, the hook still takes it, as a video. */
  lemma UploadTakesWhatFormRejects(form: EventForm.FormState, s: UploadState, f: MediaFile)
    requires !IsImageMime(f.mime) && !IsVideoMime(f.mime)
    ensures EventForm.HandleFileChange(form, Some(f)).draft == form.draft
    ensures HandleMediaUpload(s, Some(f)).mediaType == Some(Video)
  {
  }
}

=== FILE: media_utils.dfy ===
/** `resizeMedia` and its two paths: the image path crops the largest centred
    4:5 region out of the source and scales it to 400 by 500; the video path
    draws one whole frame onto the same 400 by 500 canvas. */
module MediaUtils {
  import opened Wrappers
  import opened Geometry
  import opened Media

  const TargetWidth: nat := 400
  const TargetHeight: nat := 500
  /** `targetWidth / targetHeight`, exactly 4/5. */
  const TargetAspect: real := TargetWidth as real / TargetHeight as real
  const JpegQuality: real := 0.8
  /** The video is sought this far in before its frame is drawn. */
  const SeekSeconds: real := 0.1

  /** The source rectangle the image path draws: a 4:5 crop that fills the
      source along one axis and shares its centre. */
  function CropToFill(w: nat, h: nat): (r: Rect)
    ensures IsFourByFive(r)
    ensures Inside(r, w, h)
    ensures Centred(r, w, h)
    ensures r.w == w as real || r.h == h as real
  {
    WiderThanFillRatio(w, h);
    if WiderThan(w, h, TargetAspect) then
      var sw := (h as real) * TargetAspect;
      Rect(((w as real) - sw) / 2.0, 0.0, sw, h as real)
    else
      var sh := (w as real) / TargetAspect;
      Rect(0.0, ((h as real) - sh) / 2.0, w as real, sh)
  }

  /** A relatively wide source keeps its full height and loses equal strips
      left and right; any other source keeps its full width and loses equal
      strips top and bottom. */
  lemma CropAxisByShape(w: nat, h: nat)
    ensures var r := CropToFill(w, h);
      if (w as real) * 5.0 > (h as real) * 4.0
      then r.y == 0.0 && r.h == h as real && r.w == (h as real) * 4.0 / 5.0
           && r.x == ((w as real) - r.w) / 2.0
      else r.x == 0.0 && r.w == w as real && r.h == (w as real) * 5.0 / 4.0
           && r.y == ((h as real) - r.h) / 2.0
  {
    WiderThanFillRatio(w, h);
  }

  /** Exactly what the crop is: 4:5, inside the source, centred on it, and
      spanning it in at least one direction. */
  predicate IsCentredFill(q: Rect, w: nat, h: nat) {
    IsFourByFive(q) && Inside(q, w, h) && Centred(q, w, h)
    && (q.w == w as real || q.h == h as real)
  }

  /** The crop is the only rectangle with those properties. */
  lemma CropIsTheCentredFill(w: nat, h: nat, q: Rect)
    ensures IsCentredFill(q, w, h) <==> q == CropToFill(w, h)
  {
    var r := CropToFill(w, h);
    WiderThanFillRatio(w, h);
    if IsCentredFill(q, w, h) {
      var wr, hr := w as real, h as real;
      if q.w == wr {
        assert q.h == wr * 5.0 / 4.0;
        assert wr * 5.0 <= hr * 4.0;
      } else {
        assert q.h == hr;
        assert q.w == hr * 4.0 / 5.0;
        assert hr * 4.0 <= wr * 5.0;
      }
    }
  }

  /** No 4:5 rectangle inside the source is wider or taller than the crop. */
  lemma CropIsLargest(w: nat, h: nat, q: Rect)
    requires IsFourByFive(q) && Inside(q, w, h)
    ensures q.w <= CropToFill(w, h).w && q.h <= CropToFill(w, h).h
  {
    var r := CropToFill(w, h);
    WiderThanFillRatio(w, h);
    assert q.w <= w as real && q.h <= h as real;
  }

  /** The crop is the whole source exactly when the source is already 4:5. */
  lemma CropIsWholeIffFourByFive(w: nat, h: nat)
    ensures CropToFill(w, h) == Whole(w, h) <==> w * 5 == h * 4
  {
    WiderThanFillRatio(w, h);
    assert (w * 5) as real == (w as real) * 5.0;
    assert (h * 4) as real == (h as real) * 4.0;
  }

  /** For a non-empty source, scaling the crop onto the 400 by 500 canvas uses
      one factor for both axes: the picture is not distorted. */
  lemma CropScalesUniformly(w: nat, h: nat)
    requires w > 0 && h > 0
    ensures var r := CropToFill(w, h);
      r.w > 0.0 && r.h > 0.0 && (TargetWidth as real) / r.w == (TargetHeight as real) / r.h
  {
    var r := CropToFill(w, h);
    WiderThanFillRatio(w, h);
    assert r.h == r.w * 5.0 / 4.0;
  }

  /** A 1200 by 600 source loses 360 pixels on each side. */
  lemma CropLandscapeExample()
    ensures CropToFill(1200, 600) == Rect(360.0, 0.0, 480.0, 600.0)
  {
    WiderThanFillRatio(1200, 600);
  }

  /** The image path: read the file, decode it, draw the crop. The image element
      has no error handler, so an unreadable picture leaves the promise
      unsettled. */
  function ResizeImage(file: MediaFile): (p: Settlement<Drawing, MediaError>)
    ensures p.Resolved? <==> file.content.Decoded?
    ensures p.Rejected? <==> file.content == ReadFails
    ensures p.Resolved? ==> var d := p.value;
      d.picture == Still && d.width == TargetWidth && d.height == TargetHeight
      && IsCentredFill(d.region, file.content.width, file.content.height)
  {
    match file.content
    case ReadFails => Rejected(ReadError)
    case DecodeFails => Pending
    case Decoded(w, h) => Resolved(Jpeg(Still, CropToFill(w, h), TargetWidth, TargetHeight, JpegQuality))
  }

  /** The video path: seek to 0.1 s and draw the whole frame stretched onto the
      canvas; any failure of the video element rejects. */
  function ResizeVideoFrame(file: MediaFile): (p: Settlement<Drawing, MediaError>)
    ensures p.Resolved? <==> file.content.Decoded?
    ensures !p.Pending?
    ensures p.Resolved? ==> var d := p.value;
      d.picture == FrameAt(SeekSeconds) && d.width == TargetWidth && d.height == TargetHeight
      && d.region == Whole(file.content.width, file.content.height)
  {
    match file.content
    case Decoded(w, h) => Resolved(Jpeg(FrameAt(SeekSeconds), Whole(w, h), TargetWidth, TargetHeight, JpegQuality))
    case _ => Rejected(DecodeError)
  }

  /** The video path keeps the frame's own proportions in the drawn region, so
      only a 4:5 video avoids distortion on the 4:5 canvas. */
  lemma VideoRegionIsFourByFiveIff(file: MediaFile)
    requires file.content.Decoded?
    ensures IsFourByFive(ResizeVideoFrame(file).value.region)
      <==> file.content.width * 5 == file.content.height * 4
  {
    var w, h := file.content.width, file.content.height;
    assert (w * 5) as real == (w as real) * 5.0;
    assert (h * 4) as real == (h as real) * 4.0;
  }

  /** `resizeMedia`: dispatch on the MIME prefix. */
  function ResizeMedia(file: MediaFile): (p: Settlement<Drawing, MediaError>)
    ensures p == Rejected(UnsupportedFileType) <==> !IsImageMime(file.mime) && !IsVideoMime(file.mime)
    ensures IsImageMime(file.mime) ==> p == ResizeImage(file)
    ensures !IsImageMime(file.mime) && IsVideoMime(file.mime) ==> p == ResizeVideoFrame(file)
    ensures p.Resolved? ==> p.value.width == TargetWidth && p.value.height == TargetHeight
  {
    if IsImageMime(file.mime) then ResizeImage(file)
    else if IsVideoMime(file.mime) then ResizeVideoFrame(file)
    else Rejected(UnsupportedFileType)
  }
}

=== FILE: store_codec.dfy ===
/** A concrete serialization of event lists that meets `App.Lossless`: the
    round-trip guarantee the store's lemmas assume of `JSON.stringify` and
    `JSON.parse` is one that some codec over these records does satisfy.
    The text format is not JSON; only its round trip matters here. Every
    decoder reads a prefix of its input and returns the rest. */
module StoreCodec {
  import opened Wrappers
  import opened Media
  import opened EventForm
  import App

  /** A natural number in unary: one `.` per unit, closed by `:`. */
  function EncodeNat(n: nat): string {
    if n == 0 then ":" else "." + EncodeNat(n - 1)
  }

  function DecodeNat(s: string): (r: Option<(nat, string)>)
    ensures r.Some? ==> |r.value.1| < |s|
  {
    if s == [] then None
    else if s[0] == ':' then Some((0, s[1..]))
    else if s[0] == '.' then
      match DecodeNat(s[1..])
      case None => None
      case Some((n, rest)) => Some((n + 1, rest))
    else None
  }

  lemma {:induction false} DecodeEncodeNat(n: nat, rest: string)
    ensures DecodeNat(EncodeNat(n) + rest) == Some((n, rest))
  {
    if n > 0 {
      assert (EncodeNat(n) + rest)[1..] == EncodeNat(n - 1) + rest;
      DecodeEncodeNat(n - 1, rest);
    }
  }

  /** An integer as its sign followed by its magnitude. */
  function EncodeInt(i: int): string {
    if i < 0 then "-" + EncodeNat(-i) else "+" + EncodeNat(i)
  }

  function DecodeInt(s: string): (r: Option<(int, string)>)
    ensures r.Some? ==> |r.value.1| < |s|
  {
    if s == [] || (s[0] != '-' && s[0] != '+') then None
    else
      match DecodeNat(s[1..])
      case None => None
      case Some((n, rest)) =>
        var i: int := if s[0] == '-' then -(n as int) else n;
        Some((i, rest))
  }

  lemma DecodeEncodeInt(i: int, rest: string)
    ensures DecodeInt(EncodeInt(i) + rest) == Some((i, rest))
  {
    var m: nat := if i < 0 then -i else i;
    assert (EncodeInt(i) + rest)[1..] == EncodeNat(m) + rest;
    DecodeEncodeNat(m, rest);
  }

  /** A string with each character escaped by a leading `.`, closed by `:`. */
  function EncodeText(s: string): string {
    if s == [] then ":" else ['.', s[0]] + EncodeText(s[1..])
  }

  function DecodeText(s: string): (r: Option<(string, string)>)
    ensures r.Some? ==> |r.value.1| < |s|
  {
    if s == [] then None
    else if s[0] == ':' then Some(([], s[1..]))
    else if s[0] == '.' && |s| >= 2 then
      match DecodeText(s[2..])
      case None => None
      case Some((t, rest)) => Some(([s[1]] + t, rest))
    else None
  }

  lemma {:induction false} DecodeEncodeText(s: string, rest: string)
    ensures DecodeText(EncodeText(s) + rest) == Some((s, rest))
  {
    if s != [] {
      var w := EncodeText(s) + rest;
      assert w[0] == '.' && w[1] == s[0];
      assert w[2..] == EncodeText(s[1..]) + rest;
      DecodeEncodeText(s[1..], rest);
      assert [s[0]] + s[1..] == s;
    }
  }

  function EncodeKind(k: MediaKind): string {
    match k
    case Image => "I"
    case Video => "V"
  }

  function DecodeKind(s: string): (r: Option<(MediaKind, string)>)
    ensures r.Some? ==> |r.value.1| < |s|
  {
    if s == [] then None
    else if s[0] == 'I' then Some((Image, s[1..]))
    else if s[0] == 'V' then Some((Video, s[1..]))
    else None
  }

  lemma DecodeEncodeKind(k: MediaKind, rest: string)
    ensures DecodeKind(EncodeKind(k) + rest) == Some((k, rest))
  {
  }

  /** `count` escaped strings in a row. */
  function DecodeTexts(s: string, count: nat): (r: Option<(seq<string>, string)>)
    ensures r.Some? ==> |r.value.0| == count && |r.value.1| <= |s|
    decreases count
  {
    if count == 0 then Some(([], s))
    else
      match DecodeText(s)
      case None => None
      case Some((t, rest)) =>
        match DecodeTexts(rest, count - 1)
        case None => None
        case Some((ts, rest')) => Some(([t] + ts, rest'))
  }

  function EncodeTexts(ts: seq<string>): string {
    if ts == [] then [] else EncodeText(ts[0]) + EncodeTexts(ts[1..])
  }

  lemma {:induction false} DecodeEncodeTexts(ts: seq<string>, rest: string)
    ensures DecodeTexts(EncodeTexts(ts) + rest, |ts|) == Some((ts, rest))
  {
    if ts != [] {
      var tail := EncodeTexts(ts[1..]) + rest;
      assert EncodeTexts(ts) + rest == EncodeText(ts[0]) + tail;
      DecodeEncodeText(ts[0], tail);
      DecodeEncodeTexts(ts[1..], rest);
      assert |ts[1..]| == |ts| - 1;
      assert DecodeTexts(tail, |ts| - 1) == Some((ts[1..], rest));
      assert [ts[0]] + ts[1..] == ts;
    } else {
      assert EncodeTexts(ts) + rest == rest;
    }
  }

  /** The six text fields of a record, from `community` to `description`. */
  function TextFields(e: EventRecord): seq<string> {
    [e.community, e.title, e.startDate, e.endDate, e.location, e.description]
  }

  /** One record: its fields in declaration order. */
  function EncodeRecord(e: EventRecord): string {
    EncodeInt(e.id) + (EncodeTexts(TextFields(e)) + (EncodeKind(e.media.kind) + EncodeText(e.media.data)))
  }

  function DecodeRecord(s: string): (r: Option<(EventRecord, string)>)
    ensures r.Some? ==> |r.value.1| < |s|
  {
    match DecodeInt(s)
    case None => None
    case Some((id, s1)) =>
      match DecodeTexts(s1, 6)
      case None => None
      case Some((ts, s2)) =>
        match DecodeKind(s2)
        case None => None
        case Some((kind, s3)) =>
          match DecodeText(s3)
          case None => None
          case Some((data, s4)) =>
            Some((EventRecord(id, ts[0], ts[1], ts[2], ts[3], ts[4], ts[5], StoredMedia(kind, data)), s4))
  }

  lemma DecodeEncodeRecord(e: EventRecord, rest: string)
    ensures DecodeRecord(EncodeRecord(e) + rest) == Some((e, rest))
  {
    var ts := TextFields(e);
    var s3 := EncodeText(e.media.data) + rest;
    var s2 := EncodeKind(e.media.kind) + s3;
    var s1 := EncodeTexts(ts) + s2;
    assert EncodeRecord(e) + rest == EncodeInt(e.id) + s1;
    DecodeEncodeInt(e.id, s1);
    DecodeEncodeTexts(ts, s2);
    DecodeEncodeKind(e.media.kind, s3);
    DecodeEncodeText(e.media.data, rest);
  }

  /** The records one after another, with nothing between them. */
  function EncodeRecords(xs: seq<EventRecord>): string {
    if xs == [] then [] else EncodeRecord(xs[0]) + EncodeRecords(xs[1..])
  }

  /** Reads records until the input is used up; any leftover that is not a
      record makes the whole list fail. */
  function DecodeRecords(s: string): (r: Option<seq<EventRecord>>)
    decreases |s|
  {
    if s == [] then Some([])
    else
      match DecodeRecord(s)
      case None => None
      case Some((e, rest)) =>
        match DecodeRecords(rest)
        case None => None
        case Some(es) => Some([e] + es)
  }

  lemma {:induction false} DecodeEncodeRecords(xs: seq<EventRecord>)
    ensures DecodeRecords(EncodeRecords(xs)) == Some(xs)
  {
    if xs != [] {
      var tail := EncodeRecords(xs[1..]);
      DecodeEncodeRecord(xs[0], tail);
      assert EncodeRecords(xs) != [];
      DecodeEncodeRecords(xs[1..]);
      assert [xs[0]] + xs[1..] == xs;
    }
  }

  /** The list between brackets, so the empty list is written `[]`. */
  function Serialize(xs: seq<EventRecord>): (t: string)
    ensures t != "" && t[0] == '[' && t[|t| - 1] == ']'
  {
    "[" + EncodeRecords(xs) + "]"
  }

  function Parse(t: string): (r: Option<seq<EventRecord>>)
    ensures t == "[]" ==> r == Some([])
    ensures r.Some? ==> 2 <= |t| && t[0] == '[' && t[|t| - 1] == ']'
  {
    if |t| < 2 || t[0] != '[' || t[|t| - 1] != ']' then None
    else DecodeRecords(t[1..|t| - 1])
  }

  const Witness: App.Codec := App.Codec(Serialize, Parse)

  /** The store's assumption about its codec is consistent: this codec meets
      every clause of it. */
  lemma WitnessIsLossless()
    ensures App.Lossless(Witness)
  {
    forall xs: seq<EventRecord>
      ensures Parse(Serialize(xs)) == Some(xs)
    {
      var t := Serialize(xs);
      assert t[1..|t| - 1] == EncodeRecords(xs);
      DecodeEncodeRecords(xs);
    }
  }
}

=== FILE: wrappers.dfy ===
/** Small failure-carrying datatypes shared by the rest of the model. */
module Wrappers {

  /** A value that may be absent: the model of JavaScript's `null`. */
  datatype Option<+T> = None | Some(value: T)

  /** The result of a synchronous step that may throw. */
  datatype Result<+R, +E> = Success(value: R) | Failure(error: E)

  /** How a JavaScript promise ends up: resolved, rejected, or never settled
      because no handler ever calls `resolve` or `reject`. */
  datatype Settlement<+R, +E> = Resolved(value: R) | Rejected(error: E) | Pending
}
